=== FILE: README.md ===
# EventConnect backend: listing aggregation and store transitions

A Dafny model of the pure logic inside the EventConnect marketplace backend
(`app.py`, a Flask application over four tables: users, professional
profiles, services and bookings).

- `types.dfy` (`Types`): `Option` for nullable columns and JSON `null`;
  `Field` for a request-body key that may be absent; Python truthiness of a
  nullable string.
- `text.dfy` (`Text`): `str.lower()`, `str.title()` and the substring test
  `t in s`, with the scan proved equal to "occurs at some index".
- `entities.dfy` (`Entities`): the four row types, the store, and the row
  id SQLite assigns to an inserted row (largest id plus one, below its
  64-bit limit).
- `professionals.dfy` (`Professionals`): `GET /api/professionals`. It joins
  professional users with completed profiles and fills falsy fields with
  templated defaults. It then adds legacy professionals found by name in a
  five-entry table. It appends six sample listings when fewer than five
  verified listings precede them.
- `handlers.dfy` (`Handlers`): registration, service creation and `PATCH`,
  the profile upsert and booking creation. Each is a function from a store
  and a request body to a reply and the next store.

Modelling choices:
- A request body is a record with one `Field` per key the handler reads. A
  missing required key (`data['k']`) raises `KeyError`, so nothing is
  committed. The model answers `ServerError` with the store unchanged. A
  missing optional key (`data.get('k', old)`) keeps the old value.
- Tables are sequences in row-id order. Unordered queries return rows in
  that order, and the join is users-major. SQL leaves both orders open.
- `hash(user.name)` is salted per process, so it is a parameter
  `NameHash`. Python's `%` by a positive number never returns a negative
  result, and neither does Dafny's, so `hash % 5` is written as is. Ratings
  are kept in tenths (`45` is 4.5).
- Image URLs all follow one Unsplash template, so an image is stored as its
  photo id. `ImageUrl` spells out the full URL; no property depends on it.
- A listing's bio is a `Bio`: the profile's own text, the category
  template used when the profile has none, or one of the twelve fixed texts
  of the legacy table and the samples. `BioText` spells each one out. No
  property depends on the wording of the fixed prose;
  `TemplatedBioNamesCategory` states what the rendered template promises.
- `PATCH /api/services/<id>` checks no ownership: any caller may patch any
  service. The model reflects this, since the handler takes no caller.
- Booking creation does not check that the service exists. `CreateBooking`
  succeeds for any service id.

Notes on the listing code:
- Legacy listings have `25 + hash % 50` reviews (app.py:285), while profile
  listings have `25 + hash % 75`.
- Sample listings have a rating of 4.5 and 25 reviews. They have no
  `experience`, `completedEvents` or `responseTime` keys.
- The name-based portrait choice applies only to profile listings. Legacy
  and sample listings take their images from their tables.

## Model

| member | source | states |
|---|---|---|
| Text.Lower | app.py:176 | lower-casing keeps the length and maps every character through the ASCII lower-case map |
| Text.TitleFrom | app.py:188 | title-casing keeps the length; a character is upper-cased exactly when the character before it (if any) has no case, and lower-cased otherwise |
| Text.TitleIdempotent | app.py:188 | title-casing a title-cased category changes nothing |
| Text.LowerOfTitle | app.py:188 | title-casing only changes letter case: lower-casing the result gives the lower-cased input |
| Text.ContainsIffOccurs | app.py:176 | the left-to-right substring scan succeeds exactly when the fragment occurs at some index of the name |
| Entities.FreshId | app.py:21 | a new row id exceeds every id in the table (1 for an empty table, otherwise one more than an existing id) |
| Professionals.ImageFor | app.py:175-181 | the female portrait is chosen exactly when one of the eight fragments occurs in the lower-cased name; otherwise the single default portrait |
| Professionals.EmmanuelGetsFemalePortrait | app.py:175-176 | because the rule is a substring test, "Emmanuel" (containing "emma") gets the female portrait |
| Professionals.PairsOf | app.py:163-168 | the pairs joined for one user are exactly its completed profiles, when the user is a professional |
| Professionals.PairsOfDistinct | app.py:163-168 | with unique profile ids, a user's joined pairs have no repeats |
| Professionals.Joined | app.py:163-168 | a (user, profile) pair is in the join exactly when the user is a professional, the profile is complete and belongs to that user |
| Professionals.JoinedDistinct | app.py:163-173 | with unique user and profile ids, no pair is joined twice, so each joined pair yields exactly one listing |
| Professionals.TemplatedBio | app.py:191 | the default bio of a profile listing names the profile's category right after "Professional " |
| Professionals.TemplatedBioNamesCategory | app.py:191 | `BioText` renders a templated bio as `TemplatedBio` gives it, so the rendered text carries the template's guarantee |
| Professionals.ProfileListing | app.py:183-201 | the listing carries the user's id, name and email and the profile's category and phone; falsy specialty, location, bio and pricing become the title-cased "<Category> Specialist", "Kenya", the category-templated bio and "Contact for pricing"; rating 4.5 plus a tenth of `hash % 5`, `25 + hash % 75` reviews and `100 + hash % 200` completed events, all from the name's hash (so the same name gets the same numbers), hence 4.5-4.9, 25-99 and 100-299; response within 2 hours; verified |
| Professionals.ProfileListings | app.py:173-201 | exactly one listing per joined pair, in join order |
| Professionals.CompletedIds | app.py:206 | the excluded ids are the user ids of the joined profiles, pair by pair |
| Professionals.CompletedIdsIff | app.py:204-207 | with unique user ids, a user's id is excluded exactly when that user joins a completed profile |
| Professionals.LegacyMatches | app.py:204-210 | a user is kept as legacy exactly when it is a professional, its id is not excluded and its name is one of Kinara, Nathan, 2PAC, Marley, John |
| Professionals.LegacyMatchesInUserOrder | app.py:204-210 | the kept legacy users are the store's users with some deleted and the rest in their order; none is repeated or added |
| Professionals.LegacyMatchesDistinct | app.py:204-210 | with unique user ids, each kept legacy user appears once |
| Professionals.LegacyKeptIff | app.py:204-210 | a professional user of the store is listed as legacy exactly when it has no completed profile and its name is one of the five |
| Professionals.LegacyEntryFor | app.py:211-272 | the table has an entry for exactly the five guarded names, so the `.get` defaults are never used |
| Professionals.LegacyListing | app.py:273-292 | a legacy listing carries the user's id, name and email; every data field comes from the name's table entry; rating 4.5 plus a tenth of `hash % 5` and `25 + hash % 50` reviews, from the name's hash, hence 4.5-4.9 and 25-74; verified |
| Professionals.LegacyListings | app.py:209-292 | one listing per kept legacy user, position by position, in the order of its input |
| Professionals.CountVerified | app.py:294 | the verified count never exceeds the length, and equals it exactly when every listing is verified |
| Professionals.Samples | app.py:295-320 | six verified samples with ids 101 to 106 in order, rating 4.5 and 25 reviews |
| Professionals.StoredListings | app.py:170-292 | the profile listings come first, then the legacy listings; the length is the number of joined pairs plus kept legacy users; all are verified |
| Professionals.CountVerifiedAppend | app.py:294 | the verified count of two listing runs put together is the sum of their counts |
| Professionals.AddSamples | app.py:294-320 | the samples are appended exactly when fewer than five listings are verified, after everything already there; afterwards at least five listings are verified, whatever the input |
| Professionals.GetProfessionals | app.py:160-322 | with n stored listings the output has n + 6 entries when n < 5 and n otherwise; it starts with the stored listings and ends with the samples exactly when n < 5; it always has at least five entries, all verified |
| Professionals.RatingsInRange | app.py:193-316 | every listing of the output (profile listings at lines 193-194, legacy ones at 284-285, samples at 315-316) has a rating between 4.5 and 4.9 and between 25 and 99 reviews |
| Handlers.FirstIndex | app.py:339 | the index found is the first whose row matches; none is found exactly when no row matches |
| Handlers.Register | app.py:66-84 | a missing email gives a server error; a taken email gives 400; a new email with a missing password, name or user type gives a server error; otherwise the user is added with a fresh id; every failure leaves the store unchanged |
| Handlers.RegisterKeepsEmailsUnique | app.py:70-81 | registration keeps emails unique |
| Handlers.RegisterKeepsIdsUnique | app.py:73-81 | registration keeps user ids unique |
| Handlers.RegisterTwiceRejected | app.py:70-71 | after a successful registration, registering the same email again gives 400 and changes nothing |
| Handlers.CreateService | app.py:107-118 | the service is added iff its four keys are present, with a fresh id and the caller as owner; otherwise nothing changes |
| Handlers.CreateServiceKeepsIdsUnique | app.py:109-117 | service creation keeps service ids unique |
| Handlers.CreateServiceIgnoresBodyOwner | app.py:109-115 | a `professional_id` in the body has no effect; the new service's owner is the caller |
| Handlers.Patched | app.py:148-151 | each of name, description, price and category is overwritten iff its key is present; id and owner never change |
| Handlers.PatchService | app.py:135-153 | 404 exactly when no service has the id, with nothing changed; otherwise only that service is patched and the other tables are untouched |
| Handlers.PatchIdempotent | app.py:146-153 | patching twice with the same body equals patching once |
| Handlers.PatchWithoutKeysChangesNothing | app.py:148-151 | a body with none of the four keys leaves the store unchanged |
| Handlers.Merged | app.py:343-349 | each profile field, including `setupComplete` for `setup_complete`, is overwritten iff its key is present; id and owner never change |
| Handlers.UpsertProfile | app.py:339-365 | the user's first profile, in table order, is merged in place, with no profile added; otherwise a profile with a fresh id is added iff category, location and bio are present, with `setup_complete` false unless given; failures change nothing; other tables are untouched |
| Handlers.UpsertKeepsProfileIdsUnique | app.py:339-362 | the upsert keeps profile ids unique |
| Handlers.UpsertKeepsOneProfilePerUser | app.py:339-362 | if no user had two profiles, none has after the upsert |
| Handlers.UpsertIdempotent | app.py:339-362 | repeating a successful upsert with the same body changes nothing further |
| Handlers.CreateBooking | app.py:377-387 | the booking is added iff both keys are present, whatever the service id, with a fresh id, the caller as client and status pending; otherwise nothing changes |
| Handlers.CreateBookingKeepsIdsUnique | app.py:379-384 | booking creation keeps booking ids unique |

## Left out

- Login (`/api/login`): the whole handler is a password-hash check and a token issue. Both are foreign library calls.
- Token issue and verification: the caller's identity is a parameter of the handlers that need it.
- Password hashing: a parameter `hashPassword`, since the real hash is salted at random.
- `datetime.fromisoformat` on `event_date`: a library parser. The date stays an uninterpreted string, and a parse failure is not modelled.
- The authenticated path of `professional_profile`: when the token check succeeds, `data` is read before it is bound, so that path fails. The fallback to a `user_id` taken from the body is a security defect. The model takes the user id as a parameter and models only the upsert.
- `GET /api/categories`, the GET and DELETE handlers for services, and `GET /api/bookings`: reads with nothing to state beyond the rows returned.
- JSON `null` in bodies, except for the five nullable text columns of a profile: `null` in a non-null column fails, at commit or earlier in the password hash or the date parser, with nothing stored.
- Integer width: ids and integer values are unbounded; SQLite's 64-bit limit is not modelled. When the largest id is 2^63 - 1, SQLite picks an unused id at random or fails, while `FreshId` returns 2^63. An integer beyond 64 bits in a body fails when bound.
- Wrongly typed JSON values in bodies: SQLite stores most of them as sent (a `name` of `7` becomes "7"), while a few are rejected, such as a non-boolean `setupComplete`. Neither outcome is modelled.
- A `null` `setupComplete`: `setup_complete` is a nullable column, so the upsert would store NULL. The model keeps it a `bool`, so this case is not expressed.
- Databases other than the default SQLite file: with a different `DATABASE_URL`, the new row ids and the check of foreign keys (such as a booking's service id) may differ. `FreshId` follows SQLite's rule below its 64-bit limit, and `CreateBooking` accepts any service id because SQLite does not enforce foreign keys by default.
- Python's `hash` and float `round`: the hash is a parameter and ratings are integers in tenths.
- The `portfolio` field is always an empty list, so it is omitted.
- Text.Lower: only ASCII letters change case; Python's Unicode case mapping is not modelled.
- Text.TitleFrom: only ASCII letters count as cased; Python's Unicode rules are not modelled.
- Query order: SQL gives no order without `ORDER BY`. The model fixes row-id order and a users-major join.

=== FILE: entities.dfy ===
/**
 The four tables of the marketplace (users, professional profiles, services,
 bookings) as immutable rows, and the store that holds them. Each table is a
 sequence in row-id order, which is the order an unordered query returns.
 */
module Entities {
  import opened Types

  datatype User = User(
    id: int,
    email: string,
    passwordHash: string,
    name: string,
    userType: string)

  /** Every column but `category` is nullable. */
  datatype Profile = Profile(
    id: int,
    userId: int,
    category: string,
    specialty: Option<string>,
    location: Option<string>,
    phone: Option<string>,
    bio: Option<string>,
    pricing: Option<string>,
    setupComplete: bool)

  /** `price` is a floating-point column; the model only stores it. */
  datatype Service = Service(
    id: int,
    name: string,
    description: string,
    price: real,
    category: string,
    professionalId: int)

  /** `eventDate` is the parsed event date, kept as an uninterpreted value. */
  datatype Booking = Booking(
    id: int,
    clientId: int,
    serviceId: int,
    eventDate: string,
    status: string,
    rating: Option<int>,
    review: Option<string>)

  datatype Store = Store(
    users: seq<User>,
    profiles: seq<Profile>,
    services: seq<Service>,
    bookings: seq<Booking>)

  const Professional := "professional"
  const Pending := "pending"

  /** The row id SQLite gives a new row: one more than the largest id in the
      table, or 1 when the table is empty. */
  function FreshId(ids: seq<int>): (r: int)
    ensures forall i :: 0 <= i < |ids| ==> ids[i] < r
    ensures |ids| == 0 ==> r == 1
    ensures |ids| > 0 ==> r - 1 in ids
  {
    if |ids| == 0 then 1
    else
      var rest := FreshId(ids[1..]);
      if |ids| == 1 || rest <= ids[0] then ids[0] + 1 else rest
  }

  function UserIds(users: seq<User>): (r: seq<int>)
    ensures |r| == |users|
    ensures forall i :: 0 <= i < |users| ==> r[i] == users[i].id
  {
    seq(|users|, i requires 0 <= i < |users| => users[i].id)
  }

  function ProfileIds(profiles: seq<Profile>): (r: seq<int>)
    ensures |r| == |profiles|
    ensures forall i :: 0 <= i < |profiles| ==> r[i] == profiles[i].id
  {
    seq(|profiles|, i requires 0 <= i < |profiles| => profiles[i].id)
  }

  function ServiceIds(services: seq<Service>): (r: seq<int>)
    ensures |r| == |services|
    ensures forall i :: 0 <= i < |services| ==> r[i] == services[i].id
  {
    seq(|services|, i requires 0 <= i < |services| => services[i].id)
  }

  function BookingIds(bookings: seq<Booking>): (r: seq<int>)
    ensures |r| == |bookings|
    ensures forall i :: 0 <= i < |bookings| ==> r[i] == bookings[i].id
  {
    seq(|bookings|, i requires 0 <= i < |bookings| => bookings[i].id)
  }

  /** No two users share an email (the column's unique constraint). */
  predicate UniqueEmails(users: seq<User>) {
    forall i, j :: 0 <= i < j < |users| ==> users[i].email != users[j].email
  }

  /** No element occurs twice; of a table's ids, the primary key. */
  predicate Distinct<T(==)>(xs: seq<T>) {
    forall i, j :: 0 <= i < j < |xs| ==> xs[i] != xs[j]
  }

  /** Dropping the first element keeps a sequence free of repeats, and the
      first element does not occur again. */
  lemma DistinctTail<T>(xs: seq<T>)
    requires xs != [] && Distinct(xs)
    ensures Distinct(xs[1..])
    ensures xs[0] !in xs[1..]
  {
  }

  /** Two sequences with no element in common, each without repeats, put
      together have no repeats. */
  lemma DistinctAppend<T>(a: seq<T>, b: seq<T>)
    requires Distinct(a) && Distinct(b)
    requires forall x :: x in a ==> x !in b
    ensures Distinct(a + b)
  {
    forall i, j | 0 <= i < j < |a + b|
      ensures (a + b)[i] != (a + b)[j]
    {
      if j < |a| {
        assert (a + b)[i] == a[i] && (a + b)[j] == a[j];
      } else if i < |a| {
        assert (a + b)[i] == a[i] && (a + b)[j] == b[j - |a|];
        assert b[j - |a|] in b;
      } else {
        assert (a + b)[i] == b[i - |a|] && (a + b)[j] == b[j - |a|];
      }
    }
  }
}

=== FILE: handlers.dfy ===
/**
 The state-changing request handlers, as pure functions from a store and a
 request body to a reply and the next store: registration, service creation
 and `PATCH`, the professional-profile upsert and booking creation.

 A request body is a record with one `Field` per key the handler reads. A
 required key (`data['k']`) that is absent raises `KeyError`, which reaches
 the client as a server error with nothing committed; an optional key
 (`data.get('k', old)`) that is absent keeps the old value.
 */
module Handlers {
  import opened Types
  import opened Entities

  /** `Created` is 201 with the new row's id, `Ok` is 200, `BadRequest` 400,
      `NotFound` 404 and `ServerError` an uncaught exception. */
  datatype Status = Created(id: int) | Ok | BadRequest | NotFound | ServerError

  datatype Reply = Reply(status: Status, store: Store)

  /** The index of the first element satisfying `p`, as a `.first()` query
      or a primary-key lookup finds it. */
  function FirstIndex<T>(xs: seq<T>, p: T -> bool): (r: Option<nat>)
    ensures r.Some? ==> r.value < |xs| && p(xs[r.value])
    ensures r.Some? ==> forall j :: 0 <= j < r.value ==> !p(xs[j])
    ensures r.None? <==> forall j :: 0 <= j < |xs| ==> !p(xs[j])
  {
    if xs == [] then None
    else if p(xs[0]) then Some(0)
    else
      match FirstIndex(xs[1..], p)
      case None => None
      case Some(i) => Some(i + 1)
  }

  // ---------------------------------------------------------------------------
  // POST /api/register

  datatype RegisterBody = RegisterBody(
    email: Field<string>,
    password: Field<string>,
    name: Field<string>,
    userType: Field<string>)

  predicate EmailTaken(users: seq<User>, email: string) {
    exists i :: 0 <= i < |users| && users[i].email == email
  }

  /** Registration. The email is read first: if it is missing the handler
      fails, and if a user already has it the reply is 400. Only then are the
      other keys read. Password hashing is a parameter (it is salted). */
  function Register(st: Store, body: RegisterBody, hashPassword: string -> string): (out: Reply)
    ensures body.email.Absent? ==> out == Reply(ServerError, st)
    ensures body.email.Present? && EmailTaken(st.users, body.email.value) ==> out == Reply(BadRequest, st)
    ensures body.email.Present? && !EmailTaken(st.users, body.email.value) &&
            (body.password.Absent? || body.name.Absent? || body.userType.Absent?) ==>
              out == Reply(ServerError, st)
    ensures out.status.Created? <==>
              && body.email.Present? && !EmailTaken(st.users, body.email.value)
              && body.password.Present? && body.name.Present? && body.userType.Present?
    ensures !out.status.Created? ==> out.store == st
    ensures out.status.Created? ==>
              && out.status.id !in UserIds(st.users)
              && out.store == st.(users := st.users + [User(out.status.id, body.email.value,
                                                           hashPassword(body.password.value),
                                                           body.name.value, body.userType.value)])
  {
    match body.email
    case Absent => Reply(ServerError, st)
    case Present(email) =>
      if EmailTaken(st.users, email) then Reply(BadRequest, st)
      else if body.password.Absent? || body.name.Absent? || body.userType.Absent? then
        Reply(ServerError, st)
      else
        var id := FreshId(UserIds(st.users));
        var user := User(id, email, hashPassword(body.password.value), body.name.value, body.userType.value);
        Reply(Created(id), st.(users := st.users + [user]))
  }

  /** Registration keeps emails unique. */
  lemma RegisterKeepsEmailsUnique(st: Store, body: RegisterBody, hashPassword: string -> string)
    requires UniqueEmails(st.users)
    ensures UniqueEmails(Register(st, body, hashPassword).store.users)
  {
    var out := Register(st, body, hashPassword);
    if out.status.Created? {
      var us := out.store.users;
      forall i, j | 0 <= i < j < |us|
        ensures us[i].email != us[j].email
      {
        if j == |st.users| {
          assert us[i] == st.users[i];
        }
      }
    }
  }

  /** Registration keeps user ids unique. */
  lemma RegisterKeepsIdsUnique(st: Store, body: RegisterBody, hashPassword: string -> string)
    requires Distinct(UserIds(st.users))
    ensures Distinct(UserIds(Register(st, body, hashPassword).store.users))
  {
    var out := Register(st, body, hashPassword);
    if out.status.Created? {
      var ids := UserIds(out.store.users);
      forall i, j | 0 <= i < j < |ids|
        ensures ids[i] != ids[j]
      {
        if j == |st.users| {
          assert ids[i] == UserIds(st.users)[i];
        } else {
          assert ids[i] == UserIds(st.users)[i] && ids[j] == UserIds(st.users)[j];
        }
      }
    }
  }

  /** A second registration with the same email is refused and changes
      nothing. */
  lemma RegisterTwiceRejected(st: Store, b1: RegisterBody, b2: RegisterBody, hashPassword: string -> string)
    requires b1.email.Present? && b2.email == b1.email
    requires Register(st, b1, hashPassword).status.Created?
    ensures
      var st1 := Register(st, b1, hashPassword).store;
      Register(st1, b2, hashPassword) == Reply(BadRequest, st1)
  {
    var st1 := Register(st, b1, hashPassword).store;
    assert st1.users[|st.users|].email == b1.email.value;
  }

  // ---------------------------------------------------------------------------
  // POST /api/services

  /** The body of a service creation. A `professional_id` key may be sent;
      the handler never reads it. */
  datatype ServiceBody = ServiceBody(
    name: Field<string>,
    description: Field<string>,
    price: Field<real>,
    category: Field<string>,
    professionalId: Field<int>)

  /** Service creation by the caller whose token carries `identity`. */
  function CreateService(st: Store, identity: int, body: ServiceBody): (out: Reply)
    ensures out.status.Created? <==>
              body.name.Present? && body.description.Present? && body.price.Present? && body.category.Present?
    ensures !out.status.Created? ==> out == Reply(ServerError, st)
    ensures out.status.Created? ==>
              && out.status.id !in ServiceIds(st.services)
              && out.store == st.(services := st.services + [Service(out.status.id, body.name.value,
                                                                     body.description.value, body.price.value,
                                                                     body.category.value, identity)])
  {
    if body.name.Absent? || body.description.Absent? || body.price.Absent? || body.category.Absent? then
      Reply(ServerError, st)
    else
      var id := FreshId(ServiceIds(st.services));
      var s := Service(id, body.name.value, body.description.value, body.price.value, body.category.value, identity);
      Reply(Created(id), st.(services := st.services + [s]))
  }

  /** The owner of a new service is the caller, whatever the body says. */
  lemma CreateServiceIgnoresBodyOwner(st: Store, identity: int, b1: ServiceBody, b2: ServiceBody)
    requires b1.(professionalId := Absent) == b2.(professionalId := Absent)
    ensures CreateService(st, identity, b1) == CreateService(st, identity, b2)
    ensures CreateService(st, identity, b1).status.Created? ==>
              Last(CreateService(st, identity, b1).store.services).professionalId == identity
  {
  }

  function Last<T>(xs: seq<T>): T
    requires |xs| > 0
  {
    xs[|xs| - 1]
  }

  /** Service creation keeps service ids unique. */
  lemma CreateServiceKeepsIdsUnique(st: Store, identity: int, body: ServiceBody)
    requires Distinct(ServiceIds(st.services))
    ensures Distinct(ServiceIds(CreateService(st, identity, body).store.services))
  {
    var out := CreateService(st, identity, body);
    if out.status.Created? {
      var ids := ServiceIds(out.store.services);
      forall i, j | 0 <= i < j < |ids|
        ensures ids[i] != ids[j]
      {
        if j == |st.services| {
          assert ids[i] == ServiceIds(st.services)[i];
        } else {
          assert ids[i] == ServiceIds(st.services)[i] && ids[j] == ServiceIds(st.services)[j];
        }
      }
    }
  }

  // ---------------------------------------------------------------------------
  // PATCH /api/services/<id>

  datatype ServicePatch = ServicePatch(
    name: Field<string>,
    description: Field<string>,
    price: Field<real>,
    category: Field<string>)

  /** The service with only the present keys overwritten. */
  function Patched(s: Service, body: ServicePatch): (r: Service)
    ensures r.id == s.id && r.professionalId == s.professionalId
    ensures r.name == (if body.name.Present? then body.name.value else s.name)
    ensures r.description == (if body.description.Present? then body.description.value else s.description)
    ensures r.price == (if body.price.Present? then body.price.value else s.price)
    ensures r.category == (if body.category.Present? then body.category.value else s.category)
  {
    s.(name := body.name.GetOr(s.name),
       description := body.description.GetOr(s.description),
       price := body.price.GetOr(s.price),
       category := body.category.GetOr(s.category))
  }

  function HasServiceId(id: int): Service -> bool {
    (s: Service) => s.id == id
  }

  /** `PATCH` on the service with primary key `serviceId`: 404 when there is
      none, otherwise that one row is patched and nothing else changes. */
  function PatchService(st: Store, serviceId: int, body: ServicePatch): (out: Reply)
    ensures (out.status == NotFound) <==> (forall j :: 0 <= j < |st.services| ==> st.services[j].id != serviceId)
    ensures out.status == NotFound || out.status == Ok
    ensures out.status == NotFound ==> out.store == st
    ensures out.store.users == st.users && out.store.profiles == st.profiles && out.store.bookings == st.bookings
    ensures |out.store.services| == |st.services|
    ensures out.status == Ok ==>
              exists i :: 0 <= i < |st.services| && st.services[i].id == serviceId &&
                out.store.services == st.services[i := Patched(st.services[i], body)]
  {
    match FirstIndex(st.services, HasServiceId(serviceId))
    case None => Reply(NotFound, st)
    case Some(i) =>
      Reply(Ok, st.(services := st.services[i := Patched(st.services[i], body)]))
  }

  /** Patching twice with the same body is patching once. */
  lemma {:induction false} PatchIdempotent(st: Store, serviceId: int, body: ServicePatch)
    ensures
      var once := PatchService(st, serviceId, body).store;
      PatchService(once, serviceId, body).store == once
  {
    var p := HasServiceId(serviceId);
    match FirstIndex(st.services, p)
    case None =>
    case Some(i) =>
      var once := PatchService(st, serviceId, body).store;
      var patched := Patched(st.services[i], body);
      assert once.services == st.services[i := patched];
      forall j | 0 <= j < i
        ensures !p(once.services[j])
      {
        assert once.services[j] == st.services[j];
      }
      assert p(once.services[i]);
      assert FirstIndex(once.services, p) == Some(i);
      assert Patched(patched, body) == patched;
  }

  /** A body without any of the four keys changes nothing. */
  lemma PatchWithoutKeysChangesNothing(st: Store, serviceId: int)
    ensures PatchService(st, serviceId, ServicePatch(Absent, Absent, Absent, Absent)).store == st
  {
    match FirstIndex(st.services, HasServiceId(serviceId))
    case None =>
    case Some(i) =>
      assert Patched(st.services[i], ServicePatch(Absent, Absent, Absent, Absent)) == st.services[i];
  }

  // ---------------------------------------------------------------------------
  // POST/PUT /api/professional-profile

  /** The body of a profile upsert; the nullable columns accept `null`. */
  datatype ProfileBody = ProfileBody(
    category: Field<string>,
    specialty: Field<Option<string>>,
    location: Field<Option<string>>,
    phone: Field<Option<string>>,
    bio: Field<Option<string>>,
    pricing: Field<Option<string>>,
    setupComplete: Field<bool>)

  /** The profile with only the present keys overwritten (`setupComplete`
      writes `setup_complete`). */
  function Merged(p: Profile, body: ProfileBody): (r: Profile)
    ensures r.id == p.id && r.userId == p.userId
    ensures r.category == (if body.category.Present? then body.category.value else p.category)
    ensures r.specialty == (if body.specialty.Present? then body.specialty.value else p.specialty)
    ensures r.location == (if body.location.Present? then body.location.value else p.location)
    ensures r.phone == (if body.phone.Present? then body.phone.value else p.phone)
    ensures r.bio == (if body.bio.Present? then body.bio.value else p.bio)
    ensures r.pricing == (if body.pricing.Present? then body.pricing.value else p.pricing)
    ensures r.setupComplete == (if body.setupComplete.Present? then body.setupComplete.value else p.setupComplete)
  {
    p.(category := body.category.GetOr(p.category),
       specialty := body.specialty.GetOr(p.specialty),
       location := body.location.GetOr(p.location),
       phone := body.phone.GetOr(p.phone),
       bio := body.bio.GetOr(p.bio),
       pricing := body.pricing.GetOr(p.pricing),
       setupComplete := body.setupComplete.GetOr(p.setupComplete))
  }

  function OwnedBy(userId: int): Profile -> bool {
    (p: Profile) => p.userId == userId
  }

  /** At most one profile per user. */
  predicate OneProfilePerUser(profiles: seq<Profile>) {
    forall i, j :: 0 <= i < j < |profiles| ==> profiles[i].userId != profiles[j].userId
  }

  /** The upsert for `userId`. An existing profile (the first one found) is
      merged in place. Otherwise a new profile is added, which needs the keys
      `category`, `location` and `bio`; `setupComplete` defaults to false. */
  function UpsertProfile(st: Store, userId: int, body: ProfileBody): (out: Reply)
    ensures out.store.users == st.users && out.store.services == st.services && out.store.bookings == st.bookings
    ensures out.status == Ok || out.status == ServerError
    ensures out.status == ServerError ==> out.store == st
    ensures (exists i :: 0 <= i < |st.profiles| && st.profiles[i].userId == userId) ==>
              && out.status == Ok
              && exists i :: 0 <= i < |st.profiles| && st.profiles[i].userId == userId &&
                   (forall j :: 0 <= j < i ==> st.profiles[j].userId != userId) &&
                   out.store.profiles == st.profiles[i := Merged(st.profiles[i], body)]
    ensures (forall i :: 0 <= i < |st.profiles| ==> st.profiles[i].userId != userId) ==>
              && (out.status == Ok <==> body.category.Present? && body.location.Present? && body.bio.Present?)
              && (out.status == Ok ==>
                    exists id :: id !in ProfileIds(st.profiles) &&
                      out.store.profiles == st.profiles +
                        [Profile(id, userId, body.category.value, body.specialty.GetOr(None),
                                 body.location.value, body.phone.GetOr(None), body.bio.value,
                                 body.pricing.GetOr(None), body.setupComplete.GetOr(false))])
  {
    match FirstIndex(st.profiles, OwnedBy(userId))
    case Some(i) =>
      assert OwnedBy(userId)(st.profiles[i]);
      Reply(Ok, st.(profiles := st.profiles[i := Merged(st.profiles[i], body)]))
    case None =>
      if body.category.Absent? || body.location.Absent? || body.bio.Absent? then
        Reply(ServerError, st)
      else
        var id := FreshId(ProfileIds(st.profiles));
        var p := Profile(id, userId, body.category.value, body.specialty.GetOr(None),
                         body.location.value, body.phone.GetOr(None), body.bio.value,
                         body.pricing.GetOr(None), body.setupComplete.GetOr(false));
        Reply(Ok, st.(profiles := st.profiles + [p]))
  }

  /** The upsert never gives a user a second profile. */
  lemma UpsertKeepsOneProfilePerUser(st: Store, userId: int, body: ProfileBody)
    requires OneProfilePerUser(st.profiles)
    ensures OneProfilePerUser(UpsertProfile(st, userId, body).store.profiles)
  {
    var ps := st.profiles;
    var ps' := UpsertProfile(st, userId, body).store.profiles;
    match FirstIndex(ps, OwnedBy(userId))
    case Some(i) =>
      assert ps' == ps[i := Merged(ps[i], body)];
      forall a, b | 0 <= a < b < |ps'|
        ensures ps'[a].userId != ps'[b].userId
      {
        assert ps'[a].userId == ps[a].userId && ps'[b].userId == ps[b].userId;
      }
    case None =>
      forall a, b | 0 <= a < b < |ps'|
        ensures ps'[a].userId != ps'[b].userId
      {
        if b == |ps| {
          assert !OwnedBy(userId)(ps[a]);
        }
      }
  }

  /** The upsert keeps profile ids unique. */
  lemma UpsertKeepsProfileIdsUnique(st: Store, userId: int, body: ProfileBody)
    requires Distinct(ProfileIds(st.profiles))
    ensures Distinct(ProfileIds(UpsertProfile(st, userId, body).store.profiles))
  {
    var ps := st.profiles;
    var ids := ProfileIds(UpsertProfile(st, userId, body).store.profiles);
    forall a, b | 0 <= a < b < |ids|
      ensures ids[a] != ids[b]
    {
      if b < |ps| {
        assert ids[a] == ProfileIds(ps)[a] && ids[b] == ProfileIds(ps)[b];
      } else {
        assert ids[a] == ProfileIds(ps)[a];
      }
    }
  }

  /** Repeating a successful upsert with the same body changes nothing more. */
  lemma {:induction false} UpsertIdempotent(st: Store, userId: int, body: ProfileBody)
    requires UpsertProfile(st, userId, body).status == Ok
    ensures
      var once := UpsertProfile(st, userId, body).store;
      UpsertProfile(once, userId, body).store == once
  {
    match FirstIndex(st.profiles, OwnedBy(userId))
    case Some(i) => UpsertAgainAfterMerge(st, userId, body, i);
    case None => UpsertAgainAfterCreate(st, userId, body);
  }

  /** The merged profile is found again at the same index and merging it a
      second time changes nothing. */
  lemma UpsertAgainAfterMerge(st: Store, userId: int, body: ProfileBody, i: nat)
    requires FirstIndex(st.profiles, OwnedBy(userId)) == Some(i)
    ensures
      var once := UpsertProfile(st, userId, body).store;
      UpsertProfile(once, userId, body).store == once
  {
    var p := OwnedBy(userId);
    var merged := Merged(st.profiles[i], body);
    var once := UpsertProfile(st, userId, body).store;
    assert once.profiles == st.profiles[i := merged];
    forall j | 0 <= j < i
      ensures !p(once.profiles[j])
    {
      assert once.profiles[j] == st.profiles[j];
    }
    assert p(once.profiles[i]);
    assert FirstIndex(once.profiles, p) == Some(i);
    assert Merged(merged, body) == merged;
  }

  /** The created profile is the first one of its user, and merging the same
      body into it changes nothing. */
  lemma UpsertAgainAfterCreate(st: Store, userId: int, body: ProfileBody)
    requires FirstIndex(st.profiles, OwnedBy(userId)) == None
    requires UpsertProfile(st, userId, body).status == Ok
    ensures
      var once := UpsertProfile(st, userId, body).store;
      UpsertProfile(once, userId, body).store == once
  {
    var p := OwnedBy(userId);
    var once := UpsertProfile(st, userId, body).store;
    var n := |st.profiles|;
    var created := once.profiles[n];
    forall j | 0 <= j < n
      ensures !p(once.profiles[j])
    {
      assert once.profiles[j] == st.profiles[j];
    }
    assert p(created);
    assert FirstIndex(once.profiles, p) == Some(n);
    assert Merged(created, body) == created;
    assert once.profiles[n := created] == once.profiles;
  }

  // ---------------------------------------------------------------------------
  // POST /api/bookings

  /** `eventDate` is the date text; its ISO parsing is not modelled. */
  datatype BookingBody = BookingBody(serviceId: Field<int>, eventDate: Field<string>)

  /** Booking creation by the client whose token carries `identity`. The
      service id is not checked against the services table. */
  function CreateBooking(st: Store, identity: int, body: BookingBody): (out: Reply)
    ensures out.status.Created? <==> body.serviceId.Present? && body.eventDate.Present?
    ensures !out.status.Created? ==> out == Reply(ServerError, st)
    ensures out.status.Created? ==>
              && out.status.id !in BookingIds(st.bookings)
              && out.store == st.(bookings := st.bookings + [Booking(out.status.id, identity, body.serviceId.value,
                                                                     body.eventDate.value, Pending, None, None)])
  {
    if body.serviceId.Absent? || body.eventDate.Absent? then Reply(ServerError, st)
    else
      var id := FreshId(BookingIds(st.bookings));
      var b := Booking(id, identity, body.serviceId.value, body.eventDate.value, Pending, None, None);
      Reply(Created(id), st.(bookings := st.bookings + [b]))
  }

  /** Booking creation keeps booking ids unique. */
  lemma CreateBookingKeepsIdsUnique(st: Store, identity: int, body: BookingBody)
    requires Distinct(BookingIds(st.bookings))
    ensures Distinct(BookingIds(CreateBooking(st, identity, body).store.bookings))
  {
    var out := CreateBooking(st, identity, body);
    if out.status.Created? {
      var ids := BookingIds(out.store.bookings);
      forall i, j | 0 <= i < j < |ids|
        ensures ids[i] != ids[j]
      {
        if j == |st.bookings| {
          assert ids[i] == BookingIds(st.bookings)[i];
        } else {
          assert ids[i] == BookingIds(st.bookings)[i] && ids[j] == BookingIds(st.bookings)[j];
        }
      }
    }
  }
}

=== FILE: professionals.dfy ===
/**
 The public professional listing (`GET /api/professionals`). It is built in
 three stages:
   1. one listing per (professional user, completed profile) pair of the join,
      with falsy optional profile fields replaced by templated defaults;
   2. one listing per "legacy" professional user (no completed profile) whose
      name is in a fixed five-name table, with its data taken from the table;
   3. six fixed sample listings, appended when fewer than five verified
      listings precede them.
 Python's `hash(user.name)` is salted per process, so it is a parameter here.
 Ratings are kept in tenths (45 stands for 4.5).
 */
module Professionals {
  import opened Types
  import opened Text
  import opened Entities

  /** One entry of the JSON listing. The sample listings lack the keys
      `experience`, `completedEvents` and `responseTime`; those are `None`. */
  datatype Listing = Listing(
    id: int,
    name: string,
    email: string,
    category: string,
    specialty: string,
    location: string,
    phone: Option<string>,
    bio: Bio,
    pricing: string,
    ratingTenths: int,
    reviews: int,
    verified: bool,
    experience: Option<string>,
    completedEvents: Option<int>,
    responseTime: Option<string>,
    image: Image)

  type NameHash = string -> int

  // ---------------------------------------------------------------------------
  // Bios

  /** A listing's bio: the profile's own text, the category template used when
      a profile has none, or one of the fixed texts of the legacy table and the
      samples. The fixed texts are long prose that no property depends on, so
      a bio records which one it is and `BioText` spells it out. */
  datatype Bio = Given(text: string) | Templated(category: string) | Fixed(which: FixedBio)

  datatype FixedBio =
    | KinaraBio | NathanBio | TupacBio | MarleyBio | JohnBio | NoEntryBio
    | SarahBio | MikeBio | LisaBio | DavidBio | EmmaBio | CarlosBio

  /** The bio of a profile listing whose profile has none: it names the
      category right after "Professional ". */
  function TemplatedBio(category: string): (r: string)
    ensures OccursAt(r, category, |"Professional "|)
  {
    var r := "Professional " + category + " service provider with extensive experience in creating memorable events.";
    assert r[13..13 + |category|] == category;
    r
  }

  /** The rendered bio of a profile without one names its category right
      after "Professional ". */
  lemma TemplatedBioNamesCategory(category: string)
    ensures OccursAt(BioText(Templated(category)), category, |"Professional "|)
  {
    assert BioText(Templated(category)) == TemplatedBio(category);
  }

  /** The wording of a bio. */
  function BioText(b: Bio): string {
    match b
    case Given(t) => t
    case Templated(c) => TemplatedBio(c)
    case Fixed(KinaraBio) =>
      "Award-winning photographer specializing in capturing life's most precious moments with artistic flair and professional excellence."
    case Fixed(NathanBio) =>
      "Cinematic storyteller creating breathtaking wedding films and corporate videos that capture emotion and tell compelling stories."
    case Fixed(TupacBio) =>
      "Professional DJ and sound engineer bringing energy and unforgettable experiences to every celebration with top-tier equipment."
    case Fixed(MarleyBio) =>
      "Expert venue coordinator transforming spaces into magical settings with meticulous attention to detail and creative vision."
    case Fixed(JohnBio) =>
      "Full-service event planner specializing in luxury celebrations and corporate events with flawless execution and creative excellence."
    case Fixed(NoEntryBio) =>
      "Professional event service provider with years of experience delivering exceptional results."
    case Fixed(SarahBio) => "Award-winning wedding and event photographer"
    case Fixed(MikeBio) => "Professional DJ specializing in weddings and corporate events"
    case Fixed(LisaBio) => "Full-service event planning with 10+ years experience"
    case Fixed(DavidBio) => "Gourmet catering for all occasions"
    case Fixed(EmmaBio) => "Creative event decoration and styling"
    case Fixed(CarlosBio) => "Venue management and coordination specialist"
  }

  // ---------------------------------------------------------------------------
  // Images

  /** Every portrait is the same Unsplash URL template around a photo id, so a
      listing's image is kept as that id. */
  datatype Image = Unsplash(photo: string)

  function ImageUrl(i: Image): string {
    "https://images.unsplash.com/photo-" + i.photo + "?w=300&h=300&fit=crop&crop=face"
  }

  const FemaleImage := Unsplash("1494790108755-2616b612b786")
  const MaleImage := Unsplash("1507003211169-0a1dd7228f2d")
  const FallbackImage := Unsplash("1472099645785-5658abf4ff4e")

  /** Name fragments that select the female portrait. */
  const FemaleNames: seq<string> := ["sarah", "lisa", "emma", "maria", "anna", "jane", "mary", "kinara"]

  /** Some listed fragment occurs in the lower-cased name. */
  predicate HasFemaleName(name: string) {
    exists k :: 0 <= k < |FemaleNames| && Contains(Lower(name), FemaleNames[k])
  }

  /** The portrait of a listing built from a profile: a binary choice. */
  function ImageFor(name: string): (r: Image)
    ensures r == FemaleImage <==> HasFemaleName(name)
    ensures r == MaleImage <==> !HasFemaleName(name)
  {
    assert FemaleImage.photo[1] != MaleImage.photo[1];
    if HasFemaleName(name) then FemaleImage else MaleImage
  }

  // ---------------------------------------------------------------------------
  // Stage 1: users joined with completed profiles

  /** The join condition of the listing query. */
  predicate Joins(u: User, p: Profile) {
    u.userType == Professional && p.setupComplete && u.id == p.userId
  }

  /** The pairs the join yields for one user, in profile order. */
  function PairsOf(u: User, ps: seq<Profile>): (r: seq<(User, Profile)>)
    ensures forall x :: x in r <==> x.0 == u && x.1 in ps && Joins(u, x.1)
    ensures |r| <= |ps|
  {
    if ps == [] then []
    else
      var rest := PairsOf(u, ps[1..]);
      if Joins(u, ps[0]) then [(u, ps[0])] + rest else rest
  }

  /** The join of users with completed profiles, users-major (SQL leaves the
      order open; the model fixes this one). */
  function Joined(us: seq<User>, ps: seq<Profile>): (r: seq<(User, Profile)>)
    ensures forall x :: x in r <==> x.0 in us && x.1 in ps && Joins(x.0, x.1)
  {
    if us == [] then [] else PairsOf(us[0], ps) + Joined(us[1..], ps)
  }

  function DefaultSpecialty(category: string): string {
    Title(category) + " Specialist"
  }

  const ContactForPricing := "Contact for pricing"

  /** The listing for one joined (user, profile) pair. */
  function ProfileListing(u: User, p: Profile, h: NameHash): (r: Listing)
    ensures r.id == u.id && r.name == u.name && r.email == u.email
    ensures r.category == p.category && r.phone == p.phone
    ensures Truthy(p.specialty) ==> r.specialty == p.specialty.value
    ensures !Truthy(p.specialty) ==> r.specialty == Title(p.category) + " Specialist"
    ensures r.location == (if Truthy(p.location) then p.location.value else "Kenya")
    ensures r.bio == (if Truthy(p.bio) then Given(p.bio.value) else Templated(p.category))
    ensures r.pricing == (if Truthy(p.pricing) then p.pricing.value else ContactForPricing)
    ensures r.verified && r.experience == Some("5+ years")
    ensures r.ratingTenths == 45 + h(u.name) % 5 && r.reviews == 25 + h(u.name) % 75
    ensures r.completedEvents == Some(100 + h(u.name) % 200)
    ensures 45 <= r.ratingTenths <= 49 && 25 <= r.reviews < 100
    ensures r.completedEvents.Some? && 100 <= r.completedEvents.value < 300
    ensures r.responseTime == Some("Within 2 hours")
    ensures r.image == ImageFor(u.name)
  {
    ProfileListingOf(u, p, h(u.name))
  }

  function ProfileListingOf(u: User, p: Profile, hash: int): Listing {
    Listing(
      u.id, u.name, u.email, p.category,
      OrDefault(p.specialty, DefaultSpecialty(p.category)),
      OrDefault(p.location, "Kenya"),
      p.phone,
      if Truthy(p.bio) then Given(p.bio.value) else Templated(p.category),
      OrDefault(p.pricing, ContactForPricing),
      45 + hash % 5, 25 + hash % 75, true,
      Some("5+ years"), Some(100 + hash % 200), Some("Within 2 hours"),
      ImageFor(u.name))
  }

  /** Exactly one listing per joined pair, in the join's order. */
  function ProfileListings(pairs: seq<(User, Profile)>, h: NameHash): (r: seq<Listing>)
    ensures |r| == |pairs|
    ensures forall k :: 0 <= k < |pairs| ==> r[k] == ProfileListing(pairs[k].0, pairs[k].1, h)
  {
    seq(|pairs|, k requires 0 <= k < |pairs| => ProfileListing(pairs[k].0, pairs[k].1, h))
  }

  /** The user ids of the joined profiles: the ids excluded from stage 2. */
  function CompletedIds(pairs: seq<(User, Profile)>): (r: seq<int>)
    ensures |r| == |pairs|
    ensures forall k :: 0 <= k < |pairs| ==> r[k] == pairs[k].1.userId
  {
    if pairs == [] then [] else [pairs[0].1.userId] + CompletedIds(pairs[1..])
  }

  // ---------------------------------------------------------------------------
  // Stage 2: legacy professionals matched by name

  datatype LegacyEntry = LegacyEntry(
    category: string,
    location: string,
    phone: string,
    pricing: string,
    bio: FixedBio,
    specialty: string,
    experience: string,
    completedEvents: int,
    responseTime: string,
    image: Image)

  /** The names of the legacy table, in the table's order. */
  const LegacyNames: seq<string> := ["Kinara", "Nathan", "2PAC", "Marley", "John"]

  /** The legacy table: an entry for exactly the five names, so the `.get`
      defaults of a legacy listing are never used. */
  function LegacyEntryFor(name: string): (r: Option<LegacyEntry>)
    ensures r.Some? <==> name in LegacyNames
  {
    if name == "Kinara" then
      Some(LegacyEntry(
        "photographer", "Nairobi, Kenya", "+254-700-123456", "KSh180,000/event",
        KinaraBio,
        "Wedding & Portrait Photography", "8+ years", 250, "Within 1 hour", FemaleImage))
    else if name == "Nathan" then
      Some(LegacyEntry(
        "videographer", "Mombasa, Kenya", "+254-722-456789", "KSh260,000/event",
        NathanBio,
        "Cinematic Wedding Films", "10+ years", 180, "Within 2 hours", MaleImage))
    else if name == "2PAC" then
      Some(LegacyEntry(
        "dj", "Nairobi, Kenya", "+254-733-2PAC99", "KSh65,000/event",
        TupacBio,
        "Wedding & Party DJ", "6+ years", 320, "Within 30 minutes", FallbackImage))
    else if name == "Marley" then
      Some(LegacyEntry(
        "venue coordinator", "Kisumu, Kenya", "+254-744-MARLEY", "KSh156,000/event",
        MarleyBio,
        "Luxury Venue Coordination", "12+ years", 200, "Within 1 hour", Unsplash("1500648767791-00dcc994a43e")))
    else if name == "John" then
      Some(LegacyEntry(
        "event planner", "Nakuru, Kenya", "+254-755-JOHN01", "KSh390,000/event",
        JohnBio,
        "Luxury Event Planning", "15+ years", 400, "Within 30 minutes", Unsplash("1560250097-0b93528c311a")))
    else None
  }

  /** A professional user without a completed profile whose name the legacy
      table knows. */
  predicate IsLegacyMatch(u: User, completed: seq<int>) {
    u.userType == Professional && u.id !in completed && u.name in LegacyNames
  }

  /** The legacy users kept, in user order. */
  function LegacyMatches(us: seq<User>, completed: seq<int>): (r: seq<User>)
    ensures forall u :: u in r <==> u in us && IsLegacyMatch(u, completed)
    ensures |r| <= |us|
  {
    if us == [] then []
    else
      var rest := LegacyMatches(us[1..], completed);
      if IsLegacyMatch(us[0], completed) then [us[0]] + rest else rest
  }

  /** Every data field of listing `l` is the one the table entry `e` gives. */
  predicate CarriesEntry(l: Listing, e: LegacyEntry) {
    && l.category == e.category && l.specialty == e.specialty
    && l.location == e.location && l.phone == Some(e.phone)
    && l.bio == Fixed(e.bio) && l.pricing == e.pricing
    && l.experience == Some(e.experience)
    && l.completedEvents == Some(e.completedEvents)
    && l.responseTime == Some(e.responseTime) && l.image == e.image
  }

  /** The listing for a legacy user. Without a table entry every field takes
      its `.get` default; the name guard makes that branch unreachable. */
  function LegacyListing(u: User, h: NameHash): (r: Listing)
    ensures r.id == u.id && r.name == u.name && r.email == u.email && r.verified
    ensures r.ratingTenths == 45 + h(u.name) % 5 && r.reviews == 25 + h(u.name) % 50
    ensures 45 <= r.ratingTenths <= 49 && 25 <= r.reviews < 75
    ensures LegacyEntryFor(u.name).Some? ==> CarriesEntry(r, LegacyEntryFor(u.name).value)
  {
    var hash := h(u.name);
    match LegacyEntryFor(u.name)
    case Some(e) =>
      Listing(
        u.id, u.name, u.email, e.category, e.specialty, e.location, Some(e.phone),
        Fixed(e.bio), e.pricing, 45 + hash % 5, 25 + hash % 50, true,
        Some(e.experience), Some(e.completedEvents), Some(e.responseTime), e.image)
    case None =>
      Listing(
        // "Event Professional" is its own title case.
        u.id, u.name, u.email, "general", "Event Professional",
        "Location not specified", None,
        Fixed(NoEntryBio),
        ContactForPricing, 45 + hash % 5, 25 + hash % 50, true,
        Some("5+ years"), Some(100), Some("Within 2 hours"), FallbackImage)
  }

  function LegacyListings(ms: seq<User>, h: NameHash): (r: seq<Listing>)
    ensures |r| == |ms|
    ensures forall k :: 0 <= k < |ms| ==> r[k] == LegacyListing(ms[k], h)
  {
    seq(|ms|, k requires 0 <= k < |ms| => LegacyListing(ms[k], h))
  }

  // ---------------------------------------------------------------------------
  // Stage 3: sample listings

  function Sample(id: int, name: string, email: string, category: string, specialty: string,
                  location: string, phone: string, pricing: string, bio: FixedBio, image: Image): Listing
  {
    Listing(id, name, email, category, specialty, location, Some(phone), Fixed(bio), pricing,
            45, 25, true, None, None, None, image)
  }

  /** The six fixed sample listings. */
  function Samples(): (r: seq<Listing>)
    ensures |r| == 6
    ensures forall k :: 0 <= k < |r| ==>
              r[k].id == 101 + k && r[k].verified && r[k].ratingTenths == 45 && r[k].reviews == 25
  {
    [
    Sample(101, "Sarah Johnson", "sarah@example.com", "photographer", "Wedding Photography",
           "Miami, FL", "+1-555-0789", "$180/hour", SarahBio,
           FemaleImage),
    Sample(102, "Mike Chen", "mike@example.com", "dj", "Wedding DJ",
           "Chicago, IL", "+1-555-0234", "$300/event", MikeBio,
           MaleImage),
    Sample(103, "Lisa Rodriguez", "lisa@example.com", "event planner", "Wedding Planner",
           "Austin, TX", "+1-555-0567", "$2000/event", LisaBio,
           Unsplash("1438761681033-6461ffad8d80")),
    Sample(104, "David Kim", "david@example.com", "caterer", "Gourmet Catering",
           "Seattle, WA", "+1-555-0890", "$25/person", DavidBio,
           FallbackImage),
    Sample(105, "Emma Wilson", "emma@example.com", "decorator", "Event Styling",
           "Denver, CO", "+1-555-0345", "$500/event", EmmaBio,
           Unsplash("1544005313-94ddf0286df2")),
    Sample(106, "Carlos Martinez", "carlos@example.com", "venue coordinator", "Venue Management",
           "Phoenix, AZ", "+1-555-0678", "$150/hour", CarlosBio,
           Unsplash("1500648767791-00dcc994a43e"))
    ]
  }

  /** The number of verified listings. */
  function CountVerified(rs: seq<Listing>): (n: nat)
    ensures n <= |rs|
    ensures n == |rs| <==> forall k :: 0 <= k < |rs| ==> rs[k].verified
  {
    if rs == [] then 0
    else (if rs[0].verified then 1 else 0) + CountVerified(rs[1..])
  }

  /** Counting verified listings distributes over concatenation. */
  lemma {:induction false} CountVerifiedAppend(a: seq<Listing>, b: seq<Listing>)
    ensures CountVerified(a + b) == CountVerified(a) + CountVerified(b)
    decreases |a|
  {
    if a != [] {
      assert (a + b)[1..] == a[1..] + b;
      CountVerifiedAppend(a[1..], b);
    } else {
      assert a + b == b;
    }
  }

  // ---------------------------------------------------------------------------
  // The whole listing

  /** Stages 1 and 2: the listings drawn from the store, profile listings
      first. */
  function StoredListings(us: seq<User>, ps: seq<Profile>, h: NameHash): (r: seq<Listing>)
    ensures
      var pairs := Joined(us, ps);
      var ms := LegacyMatches(us, CompletedIds(pairs));
      && |r| == |pairs| + |ms|
      && r[..|pairs|] == ProfileListings(pairs, h)
      && r[|pairs|..] == LegacyListings(ms, h)
    ensures forall k :: 0 <= k < |r| ==> r[k].verified
  {
    var pairs := Joined(us, ps);
    var a := ProfileListings(pairs, h);
    var b := LegacyListings(LegacyMatches(us, CompletedIds(pairs)), h);
    assert (a + b)[..|a|] == a && (a + b)[|a|..] == b;
    a + b
  }

  /** Stage 3: the six samples are appended exactly when fewer than five
      listings so far are verified, so at least five verified listings come
      out whatever went in. */
  function AddSamples(result: seq<Listing>): (r: seq<Listing>)
    ensures
      var n := |result|;
      var few := CountVerified(result) < 5;
      && |r| == (if few then n + 6 else n)
      && r[..n] == result
      && r[n..] == (if few then Samples() else [])
    ensures CountVerified(r) >= 5
  {
    if CountVerified(result) < 5 then
      var r := result + Samples();
      assert r[..|result|] == result && r[|result|..] == Samples();
      CountVerifiedAppend(result, Samples());
      assert CountVerified(Samples()) == 6;
      r
    else
      result
  }

  /** `GET /api/professionals`: the stored listings, then the six samples
      exactly when fewer than five listings precede them. Every listing is
      verified, so the output never has fewer than five entries. */
  function GetProfessionals(us: seq<User>, ps: seq<Profile>, h: NameHash): (r: seq<Listing>)
    ensures
      var n := |StoredListings(us, ps, h)|;
      && |r| == (if n < 5 then n + 6 else n)
      && r[..n] == StoredListings(us, ps, h)
      && r[n..] == (if n < 5 then Samples() else [])
    ensures |r| >= 5
    ensures forall k :: 0 <= k < |r| ==> r[k].verified
  {
    var stored := StoredListings(us, ps, h);
    var r := AddSamples(stored);
    assert forall k :: |stored| <= k < |r| ==> r[k] == r[|stored|..][k - |stored|];
    r
  }

  // ---------------------------------------------------------------------------
  // Properties

  /** `xs` is `ys` with some elements deleted, the rest kept in order. */
  predicate SubsequenceOf<T(==)>(xs: seq<T>, ys: seq<T>)
    decreases |ys|
  {
    xs == [] ||
    (ys != [] && ((xs[0] == ys[0] && SubsequenceOf(xs[1..], ys[1..])) || SubsequenceOf(xs, ys[1..])))
  }

  /** With profile ids unique (the primary key), the join yields each of a
      user's completed profiles once. */
  lemma {:induction false} PairsOfDistinct(u: User, ps: seq<Profile>)
    requires Distinct(ProfileIds(ps))
    ensures Distinct(PairsOf(u, ps))
    decreases |ps|
  {
    if ps != [] {
      assert ProfileIds(ps[1..]) == ProfileIds(ps)[1..];
      DistinctTail(ProfileIds(ps));
      PairsOfDistinct(u, ps[1..]);
      var rest := PairsOf(u, ps[1..]);
      if Joins(u, ps[0]) {
        DistinctAppend([(u, ps[0])], rest);
      }
    }
  }

  /** With user and profile ids unique, no (user, profile) pair is joined
      twice, so each yields exactly one listing. */
  lemma {:induction false} JoinedDistinct(us: seq<User>, ps: seq<Profile>)
    requires Distinct(UserIds(us)) && Distinct(ProfileIds(ps))
    ensures Distinct(Joined(us, ps))
    decreases |us|
  {
    if us != [] {
      assert UserIds(us[1..]) == UserIds(us)[1..];
      DistinctTail(UserIds(us));
      PairsOfDistinct(us[0], ps);
      JoinedDistinct(us[1..], ps);
      var rest := Joined(us[1..], ps);
      DistinctAppend(PairsOf(us[0], ps), rest);
    }
  }

  /** The legacy filter keeps users in their order, never repeats one and
      never adds one. */
  lemma {:induction false} LegacyMatchesInUserOrder(us: seq<User>, completed: seq<int>)
    ensures SubsequenceOf(LegacyMatches(us, completed), us)
    ensures multiset(LegacyMatches(us, completed)) <= multiset(us)
    decreases |us|
  {
    if us != [] {
      LegacyMatchesInUserOrder(us[1..], completed);
      var rest := LegacyMatches(us[1..], completed);
      assert us == [us[0]] + us[1..];
      if IsLegacyMatch(us[0], completed) {
        assert ([us[0]] + rest)[1..] == rest;
      } else if rest != [] {
        assert SubsequenceOf(rest, us);
      }
    }
  }

  /** With user ids unique, each kept legacy user appears once. */
  lemma {:induction false} LegacyMatchesDistinct(us: seq<User>, completed: seq<int>)
    requires Distinct(UserIds(us))
    ensures Distinct(LegacyMatches(us, completed))
    decreases |us|
  {
    if us != [] {
      assert UserIds(us[1..]) == UserIds(us)[1..];
      DistinctTail(UserIds(us));
      LegacyMatchesDistinct(us[1..], completed);
      var rest := LegacyMatches(us[1..], completed);
      if IsLegacyMatch(us[0], completed) {
        DistinctAppend([us[0]], rest);
      }
    }
  }

  /** A user has a completed profile in the join. */
  predicate HasCompletedProfile(u: User, ps: seq<Profile>) {
    exists p :: p in ps && Joins(u, p)
  }

  /** With user ids unique (the primary key), a user's id is among the
      completed-profile ids exactly when that user joins a completed profile. */
  lemma {:induction false} CompletedIdsIff(us: seq<User>, ps: seq<Profile>, u: User)
    requires Distinct(UserIds(us))
    requires u in us
    ensures u.id in CompletedIds(Joined(us, ps)) <==> HasCompletedProfile(u, ps)
  {
    var pairs := Joined(us, ps);
    var ids := CompletedIds(pairs);
    if u.id in ids {
      var k :| 0 <= k < |ids| && ids[k] == u.id;
      assert pairs[k] in pairs;
      var v := pairs[k].0;
      var i :| 0 <= i < |us| && us[i] == u;
      var j :| 0 <= j < |us| && us[j] == v;
      assert UserIds(us)[i] == UserIds(us)[j];
      assert i == j;
      assert Joins(u, pairs[k].1);
    }
    if HasCompletedProfile(u, ps) {
      var p :| p in ps && Joins(u, p);
      assert (u, p) in pairs;
      var k :| 0 <= k < |pairs| && pairs[k] == (u, p);
      assert ids[k] == u.id;
    }
  }

  /** A professional user of the store is listed from the legacy table exactly
      when it has no completed profile and its name is one of the five. */
  lemma LegacyKeptIff(us: seq<User>, ps: seq<Profile>, u: User)
    requires Distinct(UserIds(us))
    requires u in us && u.userType == Professional
    ensures u in LegacyMatches(us, CompletedIds(Joined(us, ps)))
            <==> !HasCompletedProfile(u, ps) && u.name in LegacyNames
  {
    CompletedIdsIff(us, ps, u);
  }

  /** The rating lies between 4.5 and 4.9 and the review count between 25
      and 99. */
  predicate Rated(l: Listing) {
    45 <= l.ratingTenths <= 49 && 25 <= l.reviews < 100
  }

  /** Every listing is rated that way. */
  lemma RatingsInRange(us: seq<User>, ps: seq<Profile>, h: NameHash)
    ensures forall k :: 0 <= k < |GetProfessionals(us, ps, h)| ==> Rated(GetProfessionals(us, ps, h)[k])
  {
  }

  /** The image rule is a substring test, so a name such as "Emmanuel" (which
      contains "emma") gets the female portrait. */
  lemma EmmanuelGetsFemalePortrait()
    ensures ImageFor("Emmanuel") == FemaleImage
  {
    assert Lower("Emmanuel") == "emmanuel";
    assert StartsWith("emmanuel", "emma");
    assert Contains(Lower("Emmanuel"), FemaleNames[2]);
  }
}

=== FILE: text.dfy ===
/**
 The three Python string operations the listing code uses: `str.lower()`,
 `str.title()` and the substring test `needle in haystack`. Case mapping is
 modelled on ASCII letters only.
 */
module Text {

  predicate IsUpper(c: char) { 'A' <= c <= 'Z' }

  predicate IsLower(c: char) { 'a' <= c <= 'z' }

  /** A character that has case; `str.title()` starts a new word after any
      character that does not. */
  predicate IsCased(c: char) { IsUpper(c) || IsLower(c) }

  function LowerChar(c: char): (r: char)
    ensures !IsUpper(r)
    ensures IsCased(r) == IsCased(c)
  {
    if IsUpper(c) then (c as int + 32) as char else c
  }

  function UpperChar(c: char): (r: char)
    ensures !IsLower(r)
    ensures IsCased(r) == IsCased(c)
    ensures LowerChar(r) == LowerChar(c)
  {
    if IsLower(c) then (c as int - 32) as char else c
  }

  /** `s.lower()` */
  function Lower(s: string): (r: string)
    ensures |r| == |s|
    ensures forall i :: 0 <= i < |s| ==> r[i] == LowerChar(s[i])
  {
    if s == [] then [] else [LowerChar(s[0])] + Lower(s[1..])
  }

  /** `str.title()` on the rest of a string, where `afterCased` tells whether
      the character before `s` had case. */
  function TitleFrom(s: string, afterCased: bool): (r: string)
    ensures |r| == |s|
    ensures |s| > 0 ==> r[0] == (if afterCased then LowerChar(s[0]) else UpperChar(s[0]))
    ensures forall i :: 0 < i < |s| ==>
              r[i] == (if IsCased(s[i - 1]) then LowerChar(s[i]) else UpperChar(s[i]))
  {
    if s == [] then []
    else
      var c := if afterCased then LowerChar(s[0]) else UpperChar(s[0]);
      [c] + TitleFrom(s[1..], IsCased(s[0]))
  }

  /** `s.title()`: every cased character that follows an uncased one (or starts
      the string) is upper-cased, every other cased character lower-cased. */
  function Title(s: string): string {
    TitleFrom(s, false)
  }

  /** Title-casing keeps the length, and keeps which positions hold letters. */
  lemma TitleKeepsShape(s: string)
    ensures |Title(s)| == |s|
    ensures forall i :: 0 <= i < |s| ==> IsCased(Title(s)[i]) == IsCased(s[i])
  {
    forall i | 0 <= i < |s|
      ensures IsCased(Title(s)[i]) == IsCased(s[i])
    {
      if i == 0 {
        assert Title(s)[0] == UpperChar(s[0]);
      } else {
        assert Title(s)[i] == if IsCased(s[i - 1]) then LowerChar(s[i]) else UpperChar(s[i]);
      }
    }
  }

  /** Title-casing a title-cased string changes nothing. */
  lemma TitleIdempotent(s: string)
    ensures Title(Title(s)) == Title(s)
  {
    var t := Title(s);
    TitleKeepsShape(s);
    forall i | 0 <= i < |s|
      ensures Title(t)[i] == t[i]
    {
      if i > 0 {
        assert IsCased(t[i - 1]) == IsCased(s[i - 1]);
      }
    }
  }

  /** Title-casing changes the case of letters and nothing else. */
  lemma LowerOfTitle(s: string)
    ensures Lower(Title(s)) == Lower(s)
  {
    var t := Title(s);
    forall i | 0 <= i < |s|
      ensures Lower(t)[i] == Lower(s)[i]
    {
      if i == 0 {
        assert t[0] == UpperChar(s[0]);
      } else {
        assert t[i] == if IsCased(s[i - 1]) then LowerChar(s[i]) else UpperChar(s[i]);
      }
    }
  }

  /** `t` occurs in `s` starting at index `i`. */
  predicate OccursAt(s: string, t: string, i: int) {
    0 <= i && i + |t| <= |s| && s[i..i + |t|] == t
  }

  predicate StartsWith(s: string, t: string) {
    |t| <= |s| && s[..|t|] == t
  }

  /** Python's `t in s` for strings, scanning `s` from the left. */
  predicate Contains(s: string, t: string)
    decreases |s|
  {
    StartsWith(s, t) || (s != [] && Contains(s[1..], t))
  }

  /** The scan finds `t` exactly when `t` occurs somewhere in `s`. */
  lemma {:induction false} ContainsIffOccurs(s: string, t: string)
    ensures Contains(s, t) <==> exists i :: OccursAt(s, t, i)
    decreases |s|
  {
    if StartsWith(s, t) {
      assert OccursAt(s, t, 0);
    }
    if s != [] {
      ContainsIffOccurs(s[1..], t);
      if Contains(s[1..], t) {
        var i :| OccursAt(s[1..], t, i);
        assert s[1..][i..i + |t|] == s[i + 1..i + 1 + |t|];
        assert OccursAt(s, t, i + 1);
      }
    }
    if exists i :: OccursAt(s, t, i) {
      var i :| OccursAt(s, t, i);
      if i == 0 {
        assert StartsWith(s, t);
      } else {
        assert s[1..][i - 1..i - 1 + |t|] == s[i..i + |t|];
        assert OccursAt(s[1..], t, i - 1);
      }
    }
  }
}

=== FILE: types.dfy ===
/**
 Small value types shared by the whole model: an optional value (a nullable
 database column or JSON `null`) and a request-body field (a key that a JSON
 object may or may not contain).
 */
module Types {

  /** A nullable value: `None` plays Python's `None`. */
  datatype Option<+T> = None | Some(value: T)

  /** One key of a JSON request body: either the key is missing, or it is
      present with a value. */
  datatype Field<+T> = Absent | Present(value: T) {

    /** Python's `data.get(key, default)`. */
    function GetOr(default: T): T {
      match this
      case Present(v) => v
      case Absent => default
    }
  }

  /** Python truthiness of a nullable string column: `None` and `""` are falsy. */
  predicate Truthy(s: Option<string>) {
    s.Some? && s.value != ""
  }

  /** Python's `s or default` on a nullable string column. */
  function OrDefault(s: Option<string>, default: string): string {
    if Truthy(s) then s.value else default
  }
}
